=== FILE: README.md ===
# Spray-fill particle engine and BlurText timing, in Dafny

This project models the algorithmic core of a marketing landing page:

- **SprayFillCanvas** (`src/components/SprayFillCanvas.tsx`), a canvas
  effect that sweeps a virtual spray nozzle across a surface and sprays
  droplets around it. The model covers the seeded xorshift32 generator, the
  number of draws a Box-Muller sample consumes, the per-frame step (time
  step, nozzle advance, loop/stop rule at the edges, droplet count, droplet
  placement and sizing), and the imperative handle `start` / `pause` /
  `reset` / `setSweepDirection` with the rule that a frame reschedules
  itself only while the sweep is running.
- **BlurText** (`src/components/BlurText.jsx`): the `buildKeyframes` merge
  of a starting snapshot with step snapshots, and the animation timing
  (`stepCount`, `totalDuration`, `times`, `finalState`, per-segment delay
  and the completion callback on the last segment).

Modules, one concept each:

| file | module | what it holds |
|---|---|---|
| wrappers.dfy | `Wrappers` | `Option`, the stand-in for `null`/`undefined` |
| rng.dfy | `SeededRng` | seed truncation, xorshift step on `bv32`, value scaling, the draw stream, `gaussian01`'s rejection loops |
| droplets.dfy | `Droplets` | props record, `clamp`, droplet placement, density cull, sizing, one frame's batch |
| spray.dfy | `SprayFill` | state record, time step, sweep boundary rule, frame step, control handle, event traces |
| keyframes.dfy | `Keyframes` | `buildKeyframes` |
| blur_timing.dfy | `BlurTiming` | default snapshots, step count, `times`, total duration, `finalState`, segment transitions |

How the model represents the program:

- The component's refs become one immutable record `SprayState`
  (`running`, `pending`, `dir`, `nozzleX`, `nozzleY`, `tPrev`, `rng`), and
  every handle call and frame is a pure function from state to state.
- The browser's frame scheduler is the `pending` flag: `requestAnimationFrame`
  sets it, `cancelAnimationFrame` clears it, and a `Tick` event runs the
  frame callback only when it is set.
- The generator state is a `bv32`, because all of the JavaScript's
  operations on it (`| 0`, `^`, `<<`, `>>>`) act on the 32-bit pattern.
  The emitter reads the generator as a stream `us`, where `us(i)` is the
  value of the `i`-th `rng()` call, and reports how many draws it used. So
  the model fixes exactly how far each frame advances the generator: 5, 7,
  9 or 10 draws per droplet.
- `Math.log`/`Math.cos` (the Box-Muller value) and `Math.pow` are
  function-typed parameters `bm` and `pow`. The only assumption about `pow`
  is that a base in [0, 1] with a positive exponent gives a result in
  [0, 1].
- Times and geometry are `real`. The surface's client width and height are
  `nat`, because `clientWidth`/`clientHeight` are non-negative integers.
- JavaScript objects used as animation snapshots become
  `map<string, Option<V>>`. A key may be present with a nullish value, and
  an absent key reads as `None`.

Where the code and its comments differ, the model follows the code:

- The generator's comment says values lie in [0, 1). The code divides by
  0xffffffff, so the value is exactly 1 for state 0xffffffff, and that state
  has a non-zero predecessor (`SeededRng.ValueOneIsReachable`). Values lie
  in (0, 1].
- The fill jitter's comment says ±20% of the height. The expression gives
  ±10% (`Droplets.Jitter`).

Behaviour of the code that the model makes explicit, although no comment
states it:

- `reset` neither cancels a scheduled frame nor changes `running`.
- Without looping, crossing an edge stops the sweep but does not clamp
  `nozzleX`, which keeps its overshoot.
- `dropletMax` clamps only the base radius. The final radius can be up to
  1.32 times `max(dropletMin, dropletMax)` (`Droplets.RadiusCanExceedDropletMax`),
  and is never below 0.25.
- With a zero client height the normalized distance is 0/0 = NaN, so the
  density test is false and no droplet is drawn. Every iteration still
  consumes its draws (`Droplets.SprayZeroHeight`).
- After a non-looping sweep has finished, at either edge, `start()` runs one frame with a
  zero time step. That frame finds the nozzle still past the edge and stops
  again (`SprayFill.RestartAfterFinishStopsAgain`).
- The clean-up of the resize effect (the `useEffect` at SprayFillCanvas.tsx:303-308) does not run
  only on unmount. React also runs it before every re-run of
  `resizeAndInit`, which happens whenever `width`, `height` or another of
  its inputs changes (SprayFillCanvas.tsx:178). On desktop the section
  passes a new `width` after each window resize (SpraySection.tsx:29-37 and
  :113). The clean-up cancels the scheduled frame but leaves the sweep
  marked running, so `start()` returns early and the sweep stalls where
  `resizeAndInit` put the nozzle, until `pause()` and `start()` are called
  (`SprayFill.ReinitLosesFrame`, `SprayFill.ResizeStallsSweep`). The
  invariant "a frame is scheduled exactly while running" therefore holds
  only over control calls and ticks (`SprayFill.RunPreserves`). Over all
  events only its half "a scheduled frame belongs to a running sweep"
  holds (`SprayFill.RunKeepsOwned`).
- BlurText computes `times` but never uses it, and never calls
  `buildKeyframes`. Each segment animates straight from the starting
  snapshot to `finalState`; with the default top entrance, `y` goes from
  -50 to 0. The model still proves that the arrays `buildKeyframes` would
  give and `times` line up (`BlurTiming.KeyframesMatchTimes`).

## Model

| member | source | states |
|---|---|---|
| `Droplets.Clamp` | src/components/SprayFillCanvas.tsx:46-48 | result is at least `min`; at most `max` when `min <= max`; equals `n` inside the range; equals `min` when the bounds are inverted |
| `SeededRng.Seed` | src/components/SprayFillCanvas.tsx:50-53 | the seed is truncated to its low 32 bits; a zero word becomes 123456789; the state is never zero |
| `SeededRng.SeedTruncates` | src/components/SprayFillCanvas.tsx:52 | seeds that differ by a multiple of 2^32 give the same generator |
| `SeededRng.Next` | src/components/SprayFillCanvas.tsx:55 | the xorshift step keeps a non-zero state non-zero |
| `SeededRng.NoFixedPoint` | src/components/SprayFillCanvas.tsx:55 | no non-zero state maps to itself, so the sequence never stalls |
| `SeededRng.Value` | src/components/SprayFillCanvas.tsx:57 | a non-zero state gives a value in (0, 1]; the value is exactly 1 iff the state is 0xffffffff |
| `SeededRng.StreamInUnit` | src/components/SprayFillCanvas.tsx:54-58 | every value drawn from a non-zero state lies in (0, 1] |
| `SeededRng.StreamContinues` | src/components/SprayFillCanvas.tsx:54-58 | stepping the generator `n` times and then reading draw `i` gives draw `n + i` of the original stream, so consecutive frames read consecutive stretches of one stream |
| `SeededRng.ValueOneIsReachable` | src/components/SprayFillCanvas.tsx:56-57 | state 0x5e6cfce7 steps to 0xffffffff, whose value is 1, so the [0, 1) comment does not hold |
| `SeededRng.ZeroSeedDoesNotDegenerate` | src/components/SprayFillCanvas.tsx:52-53 | seed 0 maps to the fallback, and its first two values differ |
| `SeededRng.GaussianUniforms` | src/components/SprayFillCanvas.tsx:62-65 | each `while (x === 0)` loop of `gaussian01` runs exactly once: a sample costs exactly two draws, returns the stream's first two values, and leaves the state non-zero |
| `SeededRng.SampleMidStream` | src/components/SprayFillCanvas.tsx:62-65 | a sample taken after `k` draws reads draws `k` and `k + 1` of the one stream and leaves the generator `k + 2` steps on, which is how each droplet's two samples read the stream |
| `Droplets.NormalizedDistance` | src/components/SprayFillCanvas.tsx:230-231 | in [0, 1] for `y` in [0, h] with `h > 0`; 0 exactly at the centre line; NaN (`None`) iff `h` is 0 |
| `Droplets.Jitter` | src/components/SprayFillCanvas.tsx:238 | the fill jitter is within ±10% of the height, and reaches +10% |
| `Droplets.ScatterSize` | src/components/SprayFillCanvas.tsx:259 | a scattered dot's multiplier is in [0.08, 0.33] |
| `Droplets.FillSize` | src/components/SprayFillCanvas.tsx:262-263 | a fill dot's multiplier is in [0.25, 1.2] |
| `Droplets.Radius` | src/components/SprayFillCanvas.tsx:274-280 | the final radius is at least 0.25, and equals the scaled radius whenever that is at least 0.25 |
| `Droplets.RadiusBounded` | src/components/SprayFillCanvas.tsx:267-280 | with a base at most `top`, the final radius is at most `max(0.25, 1.32 * top)` |
| `Droplets.RadiusCanExceedDropletMax` | src/components/SprayFillCanvas.tsx:263-277 | a centred fill dot with base at `dropletMax` 3 gets a radius above 3 |
| `Droplets.PlaceScattered` | src/components/SprayFillCanvas.tsx:226-231 | a scattered dot lands in (0, h] with normalized distance in [0, 1] |
| `Droplets.PlaceFill` | src/components/SprayFillCanvas.tsx:232-245 | a fill dot is clamped into [0, h] and its normalized distance is in [0, 1] |
| `Droplets.Emit` | src/components/SprayFillCanvas.tsx:215-286 | one droplet consumes 5 (culled scattered), 7 (culled fill), 9 (drawn scattered) or 10 (drawn fill) draws; nothing is drawn at zero height; every drawn radius is at least 0.25 |
| `Droplets.DropletInBounds` | src/components/SprayFillCanvas.tsx:226-280 | for `h > 0`, a drawn droplet has `y` in [0, h] and radius in [0.25, max(0.25, 1.32 * max(dropletMin, dropletMax))] |
| `Droplets.Spray` | src/components/SprayFillCanvas.tsx:215-286 | `n` iterations draw at most `n` droplets and consume between 5n and 10n draws |
| `Droplets.SprayInBounds` | src/components/SprayFillCanvas.tsx:215-286 | every droplet of a batch is within the height and radius bounds |
| `Droplets.SprayZeroHeight` | src/components/SprayFillCanvas.tsx:248-253 | a zero-height surface draws no droplet |
| `SprayFill.Initial` | src/components/SprayFillCanvas.tsx:95-104 | a fresh instance is idle, unscheduled, sweeping left to right, with a non-zero generator seeded from the prop |
| `SprayFill.Reinit` | src/components/SprayFillCanvas.tsx:303-308 | a re-run of the resize effect first runs the clean-up, which cancels the scheduled frame; it keeps `running`, direction, timestamp and generator, and then `resizeAndInit` (lines 147-149) puts the nozzle at the vertical centre on the edge the current direction starts from |
| `SprayFill.Delta` | src/components/SprayFillCanvas.tsx:186-188 | the time step is 0 on the first frame after the timestamp is cleared, never exceeds 0.05 s, is the elapsed time below 50 ms and 0.05 s above it, and is non-negative when time does not run backwards |
| `SprayFill.DropletCount` | src/components/SprayFillCanvas.tsx:208-209 | the count is at most 5000 and at most `flowRate * dt`; it is the floor unless capped; it is 0 when `dt` is 0 |
| `SprayFill.Boundary` | src/components/SprayFillCanvas.tsx:194-205 | the direction reverses iff looping and the far edge is reached, and the nozzle then lands exactly on that edge; the sweep stops iff not looping and the edge is reached; otherwise direction and position are kept |
| `SprayFill.Frame` | src/components/SprayFillCanvas.tsx:180-301 | a frame reschedules iff still running; it never starts a stopped sweep; it records `tNow`; it draws nothing on the first frame after start/reset; it aims for `min(5000, floor(flowRate * dt))` droplets and sprays them around the nozzle position after the boundary rule, reading the stream from the current generator state; looping never stops the sweep; the generator stays non-zero and advances by exactly the frame's draws, between 5 and 10 per droplet aimed for; `nozzleY` is kept; it applies the boundary rule |
| `SprayFill.NonLoopStops` | src/components/SprayFillCanvas.tsx:195-205 | without looping, crossing the edge clears `running` and `pending` and keeps direction and the unclamped position |
| `SprayFill.LoopStaysInside` | src/components/SprayFillCanvas.tsx:190-205 | with looping, a non-negative speed and monotone time, a frame that starts in [0, w] ends in [0, w] |
| `SprayFill.RestartAfterFinishStopsAgain` | src/components/SprayFillCanvas.tsx:322-327 | restarting a non-looping sweep that finished at either edge stops it on the first frame, in place |
| `SprayFill.Start` | src/components/SprayFillCanvas.tsx:322-327 | start is a no-op when running; otherwise it runs, clears the timestamp and schedules a frame; the sweep position and generator are kept |
| `SprayFill.StartIdempotent` | src/components/SprayFillCanvas.tsx:323 | a second start changes nothing |
| `SprayFill.Pause` | src/components/SprayFillCanvas.tsx:328-332 | pause stops and cancels the scheduled frame, keeping position, timestamp and generator |
| `SprayFill.PauseIdempotent` | src/components/SprayFillCanvas.tsx:328-332 | pausing twice equals pausing once |
| `SprayFill.Reset` | src/components/SprayFillCanvas.tsx:333-356 | reset rewinds to left-to-right at x = 0, y = h/2 and clears the timestamp; `running`, `pending` and the generator are unchanged |
| `SprayFill.ResetIdempotent` | src/components/SprayFillCanvas.tsx:333-356 | resetting twice equals resetting once |
| `SprayFill.SetSweepDirection` | src/components/SprayFillCanvas.tsx:357-359 | only the direction changes |
| `SprayFill.InitialConsistent` | src/components/SprayFillCanvas.tsx:95-104 | a fresh instance satisfies the driver invariant |
| `SprayFill.ApplyPreserves` | src/components/SprayFillCanvas.tsx:298-300 | every control call and every tick keeps `pending == running` and a non-zero generator |
| `SprayFill.RunPreserves` | src/components/SprayFillCanvas.tsx:321-360 | over any sequence of control calls and ticks, a frame is scheduled exactly while running, so at most one is ever pending |
| `SprayFill.ApplyKeepsOwned` | src/components/SprayFillCanvas.tsx:303-308 | every event, a re-run of the resize effect included, keeps "a scheduled frame belongs to a running sweep" |
| `SprayFill.RunKeepsOwned` | src/components/SprayFillCanvas.tsx:298-360 | over any events, no frame is ever scheduled for a stopped sweep and the generator stays non-zero |
| `SprayFill.ReinitLosesFrame` | src/components/SprayFillCanvas.tsx:303-308 | a re-run of the resize effect mid-sweep leaves the sweep running with no frame scheduled, breaking the invariant; pause then start restores it |
| `SprayFill.StalledStaysStalled` | src/components/SprayFillCanvas.tsx:322-323 | a sweep marked running with no frame scheduled is left unchanged by any `start()` calls and ticks |
| `SprayFill.ResizeStallsSweep` | src/components/SprayFillCanvas.tsx:303-308 | after a re-run of the resize effect mid-sweep, no `start()` calls or ticks move the nozzle from where `resizeAndInit` put it |
| `SprayFill.MountAfterReset` | src/components/SprayFillCanvas.tsx:147-149 | after `reset()`, placing the nozzle again for the same height changes nothing: both start at the left edge, vertical centre |
| `SprayFill.ApplyFollowsStream` | src/components/SprayFillCanvas.tsx:180-301 | one event steps the generator exactly once per draw its frame makes, and not at all for control calls |
| `SprayFill.RunFollowsStream` | src/components/SprayFillCanvas.tsx:104 | the generator is never reseeded or rewound: after any events its state is the initial one stepped once per draw the frames made |
| `SprayFill.SweepProgress` | src/components/SprayFillCanvas.tsx:180-205 | after start and up to 256 ticks, the default non-looping sweep is running at x = 3.52 k |
| `SprayFill.SweepFinishes` | src/components/SprayFillCanvas.tsx:180-205 | the 257th tick, at 4096 ms, stops the sweep past 900 px; 900/220 s lies within one frame before it |
| `SprayFill.DefaultSweepFinishes` | src/components/SprayFillCanvas.tsx:70-104 | the component with its default props, mounted on 900 x 300 and started once, stops on the frame at 4096 ms |
| `Keyframes.StepKeys` | src/components/BlurText.jsx:8 | a key is collected iff some step has it |
| `Keyframes.Entry` | src/components/BlurText.jsx:12 | a step's present, non-null value wins; a null step or a nullish value falls back to `from[k]` |
| `Keyframes.BuildKeyframes` | src/components/BlurText.jsx:4-15 | the keys are exactly those of `from` and of the steps; each array has `steps.length + 1` entries, starting with `from[k]`, then each step's value or the fallback |
| `Keyframes.KeyframeKeys` | src/components/BlurText.jsx:8 | a key has an array iff `from` or some step has it |
| `Keyframes.NoStepsSingletons` | src/components/BlurText.jsx:6-13 | without steps, every key of `from` maps to `[from[k]]` |
| `Keyframes.StepOverrides` | src/components/BlurText.jsx:12 | a step that sets a key to a non-null value shows that value at its position |
| `BlurTiming.KeyframesMatchTimes` | src/components/BlurText.jsx:86-91 | for any `animationFrom` and `animationTo`, every property of the starting snapshot gets a keyframe array, and every array has one entry per entry of `times`, starting with the starting snapshot's value |
| `BlurTiming.DefaultTimeline` | src/components/BlurText.jsx:68-91 | the keyframes `buildKeyframes` would give the default snapshots: arrays for `filter`, `opacity` and `y`, each with three entries, against `times` 0, 0.5 and 1 |
| `BlurTiming.StepCount` | src/components/BlurText.jsx:89 | there is one keyframe more than there are steps |
| `BlurTiming.TotalDuration` | src/components/BlurText.jsx:90 | the duration is 0 without steps and non-negative for a non-negative step duration |
| `BlurTiming.Times` | src/components/BlurText.jsx:91 | `times` has `stepCount` entries in [0, 1], starts at 0, ends at 1 when there is more than one, and strictly increases |
| `BlurTiming.OffsetsIncrease` | src/components/BlurText.jsx:91 | the offsets strictly increase, stay in [0, 1] and the last is 1 |
| `BlurTiming.KeyframeTimeline` | src/components/BlurText.jsx:89-91 | entry `i` of `times`, scaled by the total duration, is `i * stepDuration` seconds |
| `BlurTiming.FinalState` | src/components/BlurText.jsx:106 | a single step is passed through as is, even when null; otherwise the final state is the last step when it is non-null, and `{}` when there are no steps or the last is null |
| `BlurTiming.FinalStateBranchesAgree` | src/components/BlurText.jsx:106 | the single-step shortcut agrees with the general branch except on a lone null step |
| `BlurTiming.SegmentDelay` | src/components/BlurText.jsx:110 | the delay in seconds is `index * delay` ms, non-negative for a non-negative `delay` |
| `BlurTiming.Spans` | src/components/BlurText.jsx:104-121 | every segment gets the total duration, its staggered delay, the starting snapshot and the final or starting target; only the last carries the completion callback |
| `BlurTiming.DelaysNonDecreasing` | src/components/BlurText.jsx:110 | with a non-negative `delay`, later segments never start earlier |
| `BlurTiming.OnlyLastCompletes` | src/components/BlurText.jsx:121 | a transition list whose only completing entry is the last has exactly one completion |
| `BlurTiming.CompletionFiresOnce` | src/components/BlurText.jsx:121 | with at least one segment, exactly one span carries `onAnimationComplete` |
| `BlurTiming.DefaultKeyframesTop` | src/components/BlurText.jsx:68-84 | the keyframes `buildKeyframes` would give the top-entrance defaults: `y` gets the array -50, 5, 0 |

## Left out

- Canvas drawing and compositing (`arc`/`fill`, the `destination-in` `drawImage`, `fillRect`/`clearRect`) are foreign rendering calls. A frame returns the droplets it would draw instead.
- Mask construction in `resizeAndInit`/`buildClipPath` (text rendering, `Path2D`, offscreen canvas, device-pixel-ratio sizing) is graphics plumbing. Only its nozzle placement is modelled (`SprayFill.Mount`, used by `SprayFill.Reinit`).
- `Math.log`, `Math.cos`, `Math.sqrt` and `Math.pow` are floating-point transcendental functions. They are parameters, so droplet `x` positions and base radii are not computed numerically.
- Floating-point rounding: all arithmetic is exact on `real`.
- `requestAnimationFrame`/`cancelAnimationFrame`, React hooks and refs are scheduler and framework plumbing. The scheduler is the `pending` flag. The resize effect's clean-up is modelled where it runs before a re-run (`SprayFill.Reinit`); its run on unmount is not, because nothing happens to the component afterwards.
- Re-creating the generator when the `seed` prop changes (`useMemo`, SprayFillCanvas.tsx:104) is React memoisation. The model keeps one generator per instance.
- `SeededRng.Seed` takes an integer seed. `seed | 0` on a fractional, infinite or NaN number (truncation toward zero, or 0) is not modelled.
- BlurText's `IntersectionObserver`, `console.log`, `easing`, element rendering and the `text.split` into segments are browser and framework plumbing. The segment count is an input to `BlurTiming.Spans`.
- Object key order is not modelled. Keyframes are a map, and JavaScript's key enumeration order does not affect which arrays are built.
- `BlurTiming.FromSnapshot`: `null` and `undefined` are one `None`, so the model does not distinguish them.
- The other components (SpotlightCard, TestimonialSection, SpraySection, page layout, Header, Lanyard, ServicesSection, ServiceIcon, LogoSection, TrueFocusSection, LottieIcon, AdobeFonts) are markup, DOM event handling, or wrappers over external libraries, and are not part of this model.

=== FILE: blur_timing.dfy ===
/**
 * The timing of BlurText.jsx: how many keyframe steps the animation has,
 * when each is reached, how long the whole animation runs, which snapshot
 * each text segment animates to, and each segment's start delay.
 */
module BlurTiming {
  import opened Wrappers
  import opened Keyframes

  /** A property value in a snapshot: a CSS string or a number. */
  datatype Value = Str(s: string) | Num(n: real)

  type Snapshot = Obj<Value>

  /** The `direction` prop: the text blurs in from above or from below. */
  datatype Direction = Top | Bottom

  /** The default starting snapshot: fully blurred, transparent, 50 px off. */
  function DefaultFrom(d: Direction): Snapshot {
    map["filter" := Some(Str("blur(10px)")), "opacity" := Some(Num(0.0)),
        "y" := Some(Num(if d == Top then -50.0 else 50.0))]
  }

  /** The default steps: half blurred and half opaque 5 px past the line, then settled. */
  function DefaultTo(d: Direction): seq<Option<Snapshot>> {
    [ Some(map["filter" := Some(Str("blur(5px)")), "opacity" := Some(Num(0.5)),
               "y" := Some(Num(if d == Top then 5.0 else -5.0))]),
      Some(map["filter" := Some(Str("blur(0px)")), "opacity" := Some(Num(1.0)), "y" := Some(Num(0.0))]) ]
  }

  /** The starting snapshot: the `animationFrom` prop unless it is nullish, else the direction's default. */
  function FromSnapshot(animationFrom: Option<Snapshot>, d: Direction): (s: Snapshot)
    ensures animationFrom.Some? ==> s == animationFrom.value
    ensures animationFrom.None? ==> s == DefaultFrom(d)
  {
    animationFrom.GetOr(DefaultFrom(d))
  }

  /** The step snapshots: the `animationTo` prop if it is an array, else the direction's default steps; `None` stands for any non-array. */
  function ToSnapshots(animationTo: Option<seq<Option<Snapshot>>>, d: Direction): (ss: seq<Option<Snapshot>>)
    ensures animationTo.Some? ==> ss == animationTo.value
    ensures animationTo.None? ==> ss == DefaultTo(d) && |ss| == 2
  {
    animationTo.GetOr(DefaultTo(d))
  }

  /** `stepCount`: one keyframe for the start plus one per step snapshot. */
  function StepCount(to: seq<Option<Snapshot>>): (n: nat)
    ensures n >= 1 && n - 1 == |to|
  {
    |to| + 1
  }

  /** The whole animation's length in seconds: one `stepDuration` per step. */
  function TotalDuration(stepDuration: real, to: seq<Option<Snapshot>>): (t: real)
    ensures |to| == 0 ==> t == 0.0
    ensures stepDuration >= 0.0 ==> t >= 0.0
  {
    stepDuration * (StepCount(to) - 1) as real
  }

  /** The keyframe offsets: `n` evenly spaced fractions of the animation, or a single 0 for one keyframe. */
  function Times(n: nat): (ts: seq<real>)
    ensures |ts| == n
    ensures n > 0 ==> ts[0] == 0.0
    ensures n > 1 ==> ts[n - 1] == 1.0
    ensures forall i :: 0 <= i < n ==> 0.0 <= ts[i] <= 1.0
    ensures forall i, j :: 0 <= i < j < n ==> ts[i] < ts[j]
  {
    OffsetsIncrease(n);
    seq(n, i requires 0 <= i < n => Offset(i, n))
  }

  /** Entry `i` of `times` for `n` keyframes. */
  function Offset(i: nat, n: nat): real {
    if n == 1 then 0.0 else i as real / (n - 1) as real
  }

  lemma QuotientBounds(a: real, m: real)
    requires m > 0.0
    ensures (a / m) * m == a
    ensures a > 0.0 ==> a / m > 0.0
    ensures 0.0 <= a <= m ==> 0.0 <= a / m <= 1.0
  {
  }

  lemma OffsetLess(i: nat, j: nat, n: nat)
    requires i < j < n
    ensures Offset(i, n) < Offset(j, n)
  {
    var m := (n - 1) as real;
    QuotientBounds((j - i) as real, m);
    assert Offset(j, n) - Offset(i, n) == (j - i) as real / m;
  }

  lemma OffsetsIncrease(n: nat)
    ensures n > 1 ==> Offset(n - 1, n) == 1.0
    ensures forall i :: 0 <= i < n ==> 0.0 <= Offset(i, n) <= 1.0
    ensures forall i, j :: 0 <= i < j < n ==> Offset(i, n) < Offset(j, n)
  {
    if n > 1 {
      var m := (n - 1) as real;
      assert m / m == 1.0;
    }
    forall i, j | 0 <= i < j < n ensures Offset(i, n) < Offset(j, n) {
      OffsetLess(i, j, n);
    }
    OffsetsInUnit(n);
  }

  lemma OffsetsInUnit(n: nat)
    ensures forall i :: 0 <= i < n ==> 0.0 <= Offset(i, n) <= 1.0
  {
    forall i | 0 <= i < n ensures 0.0 <= Offset(i, n) <= 1.0 {
      if n > 1 {
        QuotientBounds(i as real, (n - 1) as real);
      }
    }
  }

  /**
   * The keyframe offsets scaled by the total duration: entry `i` of
   * `times` stands for `i * stepDuration` seconds.
   */
  lemma KeyframeTimeline(stepDuration: real, to: seq<Option<Snapshot>>, i: nat)
    requires i < StepCount(to)
    ensures Times(StepCount(to))[i] * TotalDuration(stepDuration, to) == i as real * stepDuration
  {
    var n := StepCount(to);
    if n > 1 {
      var m := (n - 1) as real;
      calc {
        Times(n)[i] * TotalDuration(stepDuration, to);
        (i as real / m) * (stepDuration * m);
        { assert (i as real / m) * m == i as real; }
        i as real * stepDuration;
      }
    }
  }

  /**
   * `finalState`: a single step is used as is (even when it is null);
   * otherwise the last step, or `{}` when there is none or it is null.
   */
  function FinalState(to: seq<Option<Snapshot>>): (f: Option<Snapshot>)
    ensures |to| > 0 && to[|to| - 1].Some? ==> f == to[|to| - 1]
    ensures |to| == 0 ==> f == Some(map[])
    ensures |to| >= 2 && to[|to| - 1].None? ==> f == Some(map[])
    ensures |to| == 1 ==> f == to[0]
  {
    if |to| == 1 then to[0] else LastOrEmpty(to)
  }

  /** The general branch of `finalState`: the last step, or the empty snapshot when there is none or it is null. */
  function LastOrEmpty(to: seq<Option<Snapshot>>): (f: Option<Snapshot>)
    ensures f.Some?
  {
    if |to| > 0 && to[|to| - 1].Some? then to[|to| - 1] else Some(map[])
  }

  /** The single-step shortcut agrees with the general branch except on a lone null step, which it passes through. */
  lemma FinalStateBranchesAgree(to: seq<Option<Snapshot>>)
    ensures FinalState(to) == LastOrEmpty(to) <==> !(|to| == 1 && to[0].None?)
  {
  }

  /** What one text segment's `motion.span` is given. */
  datatype SpanTransition = SpanTransition(
    duration: real,            // seconds
    delay: real,               // seconds
    initial: Snapshot,
    animate: Option<Snapshot>,
    completes: bool)           // carries `onAnimationComplete`

  /** The segment's start delay in seconds: `index` times the `delay` prop, which is in ms. */
  function SegmentDelay(index: nat, delayMs: real): (t: real)
    ensures delayMs >= 0.0 ==> t >= 0.0
    ensures t * 1000.0 == index as real * delayMs
  {
    (index as real * delayMs) / 1000.0
  }

  /**
   * The transitions of `count` segments: same duration and snapshots for
   * all, delays staggered by index, and the completion callback on the last
   * segment only.
   */
  function Spans(count: nat, delayMs: real, stepDuration: real, from: Snapshot,
                 to: seq<Option<Snapshot>>, inView: bool): (ss: seq<SpanTransition>)
    ensures |ss| == count
    ensures forall i :: 0 <= i < count ==>
      ss[i].duration == TotalDuration(stepDuration, to) && ss[i].initial == from
      && ss[i].delay == SegmentDelay(i, delayMs)
      && ss[i].animate == (if inView then FinalState(to) else Some(from))
      && (ss[i].completes <==> i == count - 1)
  {
    seq(count, i requires 0 <= i < count =>
      SpanTransition(TotalDuration(stepDuration, to), SegmentDelay(i, delayMs), from,
                     if inView then FinalState(to) else Some(from), i == count - 1))
  }

  /** With a non-negative `delay` prop, later segments never start earlier. */
  lemma DelaysNonDecreasing(count: nat, delayMs: real, stepDuration: real, from: Snapshot,
                            to: seq<Option<Snapshot>>, inView: bool, i: nat, j: nat)
    requires delayMs >= 0.0 && i <= j < count
    ensures var ss := Spans(count, delayMs, stepDuration, from, to, inView);
      ss[i].delay <= ss[j].delay
  {
    assert (j - i) as real * delayMs >= 0.0;
  }

  /** How many transitions carry the completion callback. */
  function Completions(ss: seq<SpanTransition>): nat
    decreases |ss|
  {
    if |ss| == 0 then 0 else (if ss[0].completes then 1 else 0) + Completions(ss[1..])
  }

  lemma {:induction false} OnlyLastCompletes(ss: seq<SpanTransition>)
    requires forall i :: 0 <= i < |ss| ==> (ss[i].completes <==> i == |ss| - 1)
    ensures Completions(ss) == (if |ss| > 0 then 1 else 0)
    decreases |ss|
  {
    if |ss| > 0 {
      var rest := ss[1..];
      assert forall i :: 0 <= i < |rest| ==> rest[i] == ss[i + 1];
      OnlyLastCompletes(rest);
    }
  }

  /** With at least one segment, exactly one span carries `onAnimationComplete`. */
  lemma CompletionFiresOnce(count: nat, delayMs: real, stepDuration: real, from: Snapshot,
                            to: seq<Option<Snapshot>>, inView: bool)
    requires count > 0
    ensures Completions(Spans(count, delayMs, stepDuration, from, to, inView)) == 1
  {
    OnlyLastCompletes(Spans(count, delayMs, stepDuration, from, to, inView));
  }

  /**
   * The keyframe arrays and `times` line up: whatever the `animationFrom`
   * and `animationTo` props, every property gets one keyframe per entry of
   * `times`, the first being the starting snapshot's value.
   */
  lemma KeyframesMatchTimes(animationFrom: Option<Snapshot>, animationTo: Option<seq<Option<Snapshot>>>, d: Direction)
    ensures var from, to := FromSnapshot(animationFrom, d), ToSnapshots(animationTo, d);
      var kf := BuildKeyframes(Some(from), Some(to));
      from.Keys <= kf.Keys
      && forall k <- kf :: |kf[k]| == |Times(StepCount(to))| && kf[k][0] == Lookup(from, k)
  {
  }

  /**
   * The keyframes `buildKeyframes` would give the default snapshots: one
   * three-entry array each for `filter`, `opacity` and `y`, against the
   * offsets 0, 0.5 and 1.
   */
  lemma DefaultTimeline(d: Direction)
    ensures var from, to := FromSnapshot(None, d), ToSnapshots(None, d);
      var kf := BuildKeyframes(Some(from), Some(to));
      kf.Keys == {"filter", "opacity", "y"}
      && Times(StepCount(to)) == [0.0, 0.5, 1.0]
      && forall k <- kf :: |kf[k]| == 3
  {
    var from, to := FromSnapshot(None, d), ToSnapshots(None, d);
    DefaultKeys(d);
    DefaultTimes();
  }

  lemma DefaultKeys(d: Direction)
    ensures DefaultFrom(d).Keys == {"filter", "opacity", "y"}
    ensures StepKeys(DefaultTo(d)) == {"filter", "opacity", "y"}
  {
    var to := DefaultTo(d);
    var ks: set<string> := {"filter", "opacity", "y"};
    assert KeysOf(to[0]) == ks && KeysOf(to[1]) == ks;
    assert to[1..][1..] == [];
    assert StepKeys(to[1..]) == KeysOf(to[1]) + StepKeys(to[1..][1..]);
  }

  lemma DefaultTimes()
    ensures Times(3) == [0.0, 0.5, 1.0]
  {
    var ts := Times(3);
    assert ts[1] == Offset(1, 3) == 0.5;
  }

  /** The keyframes `buildKeyframes` would give the top-entrance defaults: `y` gets the array -50, 5, 0. */
  lemma DefaultKeyframesTop()
    ensures var r := BuildKeyframes(Some(DefaultFrom(Top)), Some(DefaultTo(Top)));
      "y" in r && r["y"] == [Some(Num(-50.0)), Some(Num(5.0)), Some(Num(0.0))]
  {
    var f, ss := DefaultFrom(Top), DefaultTo(Top);
    assert "y" in f;
    DefaultColumnTop(f, ss);
  }

  lemma DefaultColumnTop(f: Snapshot, ss: seq<Option<Snapshot>>)
    requires f == DefaultFrom(Top) && ss == DefaultTo(Top)
    ensures Keyframe(f, ss, "y") == [Some(Num(-50.0)), Some(Num(5.0)), Some(Num(0.0))]
  {
    var col := Keyframe(f, ss, "y");
    assert col[0] == Lookup(f, "y") == Some(Num(-50.0));
    assert col[1] == Entry(ss[0], "y", f) == Some(Num(5.0));
    assert col[2] == Entry(ss[1], "y", f) == Some(Num(0.0));
  }
}

=== FILE: droplets.dfy ===
/**
 * The particle emitter of the spray effect: how one frame's droplets are
 * placed and sized around the nozzle (the body of the droplet loop in
 * `step`, SprayFillCanvas.tsx).
 *
 * The emitter reads the generator as a stream `us` of draws, `us(i)` being
 * the value of the `i`-th `rng()` call, and returns how far into the stream
 * it got, so the model fixes exactly how many draws each droplet consumes.
 * The transcendental parts are parameters: `bm(u, v)` stands for the
 * Box-Muller value `sqrt(-2 ln u) * cos(2 pi v)` and `pow(b, e)` for
 * `Math.pow`.
 */
module Droplets {
  import opened Wrappers
  import opened SeededRng

  /** The component's numeric props (everything the frame step reads). */
  datatype Config = Config(
    flowRate: real,      // droplets per second
    nozzleRadius: real,  // spread sigma, px
    dropletMean: real,
    dropletSigma: real,
    dropletMin: real,
    dropletMax: real,
    sweepSpeed: real,    // px per second
    loop: bool,
    seed: int)

  /** The props' default values. */
  const DefaultConfig := Config(2500.0, 12.0, 1.6, 0.6, 0.6, 3.0, 220.0, false, 1337)

  /** Box-Muller: the normal sample for two uniforms. */
  type BoxMuller = (real, real) -> real

  /** `Math.pow(base, exponent)`. */
  type Pow = (real, real) -> real

  /** What every floating-point `pow` satisfies: a base in [0,1] raised to a positive exponent stays in [0,1]. */
  ghost predicate PowInUnit(pow: Pow) {
    forall b: real, e: real :: 0.0 <= b <= 1.0 && 0.0 < e ==> 0.0 <= pow(b, e) <= 1.0
  }

  /** Fraction of droplets classified as scattered dots. */
  const ScatteredShare: real := 0.45

  /** Smallest radius ever drawn. */
  const MinVisibleRadius: real := 0.25

  function Min(a: real, b: real): real { if a <= b then a else b }

  function Max(a: real, b: real): real { if a >= b then a else b }

  function Abs(a: real): real { if a >= 0.0 then a else -a }

  /** The source's clamp: `n` capped at `hi` first, then raised to `lo`, so `lo` wins when the bounds are inverted. */
  function Clamp(n: real, lo: real, hi: real): (r: real)
    ensures r >= lo
    ensures lo <= hi ==> r <= hi
    ensures lo <= n <= hi ==> r == n
    ensures n < lo ==> r == lo
    ensures lo <= hi < n ==> r == hi
    ensures hi < lo ==> r == lo
    ensures r <= Max(lo, hi)
  {
    Max(lo, Min(hi, n))
  }

  /**
   * Vertical distance from the centre line in units of half the height.
   * With a zero height JavaScript divides 0 by 0 and gets NaN; `None`
   * stands for that NaN.
   */
  function NormalizedDistance(y: real, h: nat): (nd: Option<real>)
    ensures nd.None? <==> h == 0
    ensures h > 0 && 0.0 <= y <= h as real ==> 0.0 <= nd.value <= 1.0
    ensures h > 0 ==> (nd.value == 0.0 <==> y == h as real / 2.0)
  {
    if h == 0 then None else Some(Abs(y - h as real / 2.0) / (h as real / 2.0))
  }

  lemma ScaleBetween(a: real, lo: real, hi: real, x: real)
    requires lo <= a <= hi && x >= 0.0
    ensures lo * x <= a * x <= hi * x
  {
    assert (a - lo) * x >= 0.0;
    assert (hi - a) * x >= 0.0;
  }

  /** The fill dot's vertical jitter for the draw `j`: a fifth of the height times the draw's offset from one half. */
  function Jitter(j: real, h: nat): (r: real)
    ensures 0.0 <= j <= 1.0 ==> -0.1 * h as real <= r <= 0.1 * h as real
    ensures j == 1.0 ==> r == 0.1 * h as real
  {
    JitterScale(j, h as real);
    (j - 0.5) * h as real * 0.2
  }

  /** For a draw in [0, 1], the jitter's factor of the height lies within ±0.1. */
  lemma JitterScale(j: real, x: real)
    ensures 0.0 <= j <= 1.0 && x >= 0.0 ==> -0.1 * x <= (j - 0.5) * x * 0.2 <= 0.1 * x
  {
    if 0.0 <= j <= 1.0 && x >= 0.0 {
      ScaleBetween((j - 0.5) * 0.2, -0.1, 0.1, x);
    }
  }

  /** Size multiplier of a scattered dot, `0.08 + m * 0.25`. */
  function ScatterSize(m: real): (r: real)
    ensures 0.0 <= m <= 1.0 ==> 0.08 <= r <= 0.33
  {
    0.08 + m * 0.25
  }

  /** Size multiplier of a fill dot, `0.25 + pow(1 - nd, 1.6) * 0.95`. */
  function FillSize(reduction: real): (r: real)
    ensures 0.0 <= reduction <= 1.0 ==> 0.25 <= r <= 1.2
  {
    0.25 + reduction * 0.95
  }

  /** Final radius: base times multiplier times `0.9 + q * 0.2`, floored at 0.25. */
  function Radius(base: real, mult: real, q: real): (r: real)
    ensures r >= MinVisibleRadius
    ensures base * mult * (0.9 + q * 0.2) >= MinVisibleRadius ==> r == base * mult * (0.9 + q * 0.2)
  {
    Max(base * mult * (0.9 + q * 0.2), MinVisibleRadius)
  }

  /** The largest radius the emitter can produce: `dropletMax` is not a cap on the final radius. */
  function RadiusCap(c: Config): real {
    Max(MinVisibleRadius, 1.32 * Max(c.dropletMin, c.dropletMax))
  }

  lemma ScaledBelow(base: real, mult: real, f: real, top: real)
    requires 0.0 <= base <= top && 0.0 <= mult <= 1.2 && 0.0 <= f <= 1.1
    ensures base * mult * f <= 1.32 * top
  {
    assert base * mult <= base * 1.2;
    assert base * mult * f <= base * 1.2 * f;
    assert base * 1.2 * f <= base * 1.2 * 1.1;
  }

  lemma RadiusBounded(base: real, mult: real, q: real, top: real)
    requires base <= top
    requires 0.0 <= mult <= 1.2 && 0.0 <= q <= 1.0
    ensures Radius(base, mult, q) <= Max(MinVisibleRadius, 1.32 * top)
  {
    var f := 0.9 + q * 0.2;
    if base >= 0.0 {
      ScaledBelow(base, mult, f, top);
    } else {
      assert base * mult <= 0.0;
      assert base * mult * f <= 0.0;
    }
  }

  /** `dropletMax` bounds the base radius only: a centred fill dot can exceed it by 32%. */
  lemma RadiusCanExceedDropletMax()
    ensures Radius(Clamp(5.0, 0.6, 3.0), FillSize(1.0), 1.0) > 3.0
  {
  }

  /** One drawn droplet: centre and radius, in logical px. */
  datatype Droplet = Droplet(x: real, y: real, rad: real)

  /** Where a droplet lands vertically and its normalized distance. */
  datatype Placement = Placement(y: real, nd: Option<real>)

  /** A scattered dot: `y = rng() * h`, anywhere over the height. */
  function PlaceScattered(h: nat, u: real): (p: Placement)
    ensures p.nd.None? <==> h == 0
    ensures 0.0 < u <= 1.0 ==> 0.0 <= p.y <= h as real
    ensures 0.0 < u <= 1.0 && h > 0 ==> 0.0 < p.y && 0.0 <= p.nd.value <= 1.0
  {
    var y := u * h as real;
    Placement(y, NormalizedDistance(y, h))
  }

  /**
   * A fill dot from three draws: centre-biased by `pow(rand, 3)`, signed by
   * `rng() < 0.5`, jittered by a tenth of the height, then clamped into [0, h].
   */
  function PlaceFill(h: nat, rand: real, signDraw: real, jitterDraw: real, pow: Pow): (p: Placement)
    ensures p.nd.None? <==> h == 0
    ensures 0.0 <= p.y <= h as real
    ensures h > 0 ==> 0.0 <= p.nd.value <= 1.0
  {
    var spread := pow(rand, 3.0);
    var sign := if signDraw < 0.5 then -1.0 else 1.0;
    var half := h as real / 2.0;
    var y := Clamp(half + sign * half * spread * 0.75 + Jitter(jitterDraw, h), 0.0, h as real);
    Placement(y, NormalizedDistance(y, h))
  }

  /** The density cull: a droplet is drawn iff its draw `a` lies below 0.2 plus 0.8 times (1 - nd) to the power 2.2; a NaN distance never draws. */
  predicate Accepted(nd: Option<real>, a: real, pow: Pow) {
    nd.Some? && a < 0.2 + pow(1.0 - nd.value, 2.2) * 0.8
  }

  /** The outcome of one droplet iteration: the droplet if drawn, and the index of the next unused draw. */
  datatype Emission = Emission(drop: Option<Droplet>, next: nat)

  /** Whether the iteration starting at draw `k` classifies its droplet as scattered (its third draw). */
  predicate IsScattered(us: nat -> real, k: nat) {
    us(k + 2) < ScatteredShare
  }

  /**
   * One iteration of the droplet loop of `step`, reading draws from index
   * `k`: a culled scattered dot consumes 5 draws, a culled fill dot 7, a
   * drawn scattered dot 9 and a drawn fill dot 10.
   */
  function Emit(c: Config, h: nat, nozzleX: real, us: nat -> real, k: nat, bm: BoxMuller, pow: Pow): (e: Emission)
    ensures e.next == k + (if IsScattered(us, k) then (if e.drop.None? then 5 else 9)
                           else (if e.drop.None? then 7 else 10))
    ensures h == 0 ==> e.drop.None?
    ensures e.drop.Some? ==> e.drop.value.rad >= MinVisibleRadius
  {
    var x := nozzleX + bm(us(k), us(k + 1)) * c.nozzleRadius * 2.0;
    var scattered := IsScattered(us, k);
    var p := if scattered then PlaceScattered(h, us(k + 3))
             else PlaceFill(h, us(k + 3), us(k + 4), us(k + 5), pow);
    var a := k + (if scattered then 4 else 6);
    if !Accepted(p.nd, us(a), pow) then
      Emission(None, a + 1)
    else
      var mult := if scattered then ScatterSize(us(a + 1)) else FillSize(pow(1.0 - p.nd.value, 1.6));
      var g := if scattered then a + 2 else a + 1;
      var base := Clamp(c.dropletMean + bm(us(g), us(g + 1)) * c.dropletSigma, c.dropletMin, c.dropletMax);
      Emission(Some(Droplet(x, p.y, Radius(base, mult, us(g + 2)))), g + 3)
  }

  /** A drawn droplet lies within the surface's height and within the radius bounds. */
  ghost predicate InBounds(d: Droplet, c: Config, h: nat) {
    && 0.0 <= d.y <= h as real
    && MinVisibleRadius <= d.rad <= RadiusCap(c)
  }

  lemma DropletInBounds(c: Config, h: nat, nozzleX: real, us: nat -> real, k: nat, bm: BoxMuller, pow: Pow)
    requires UnitStream(us) && h > 0 && PowInUnit(pow)
    ensures var e := Emit(c, h, nozzleX, us, k, bm, pow);
      e.drop.Some? ==> InBounds(e.drop.value, c, h)
  {
    var e := Emit(c, h, nozzleX, us, k, bm, pow);
    if e.drop.Some? {
      var scattered := IsScattered(us, k);
      var p := if scattered then PlaceScattered(h, us(k + 3))
               else PlaceFill(h, us(k + 3), us(k + 4), us(k + 5), pow);
      var a := k + (if scattered then 4 else 6);
      var mult := if scattered then ScatterSize(us(a + 1)) else FillSize(pow(1.0 - p.nd.value, 1.6));
      var g := if scattered then a + 2 else a + 1;
      var base := Clamp(c.dropletMean + bm(us(g), us(g + 1)) * c.dropletSigma, c.dropletMin, c.dropletMax);
      assert e.drop.value.y == p.y && e.drop.value.rad == Radius(base, mult, us(g + 2));
      assert 0.0 <= p.y <= h as real by {
        assert 0.0 < us(k + 3) <= 1.0;
      }
      assert 0.0 <= mult <= 1.2 by {
        assert 0.0 <= p.nd.value <= 1.0;
        assert 0.0 <= us(a + 1) <= 1.0;
      }
      RadiusBounded(base, mult, us(g + 2), Max(c.dropletMin, c.dropletMax));
    }
  }

  /** The droplets one frame draws, in order, and the index of the next unused draw. */
  datatype Batch = Batch(drops: seq<Droplet>, next: nat)

  /** The droplet loop of one frame: `n` iterations, reading draws from index `k` on. */
  function Spray(n: nat, c: Config, h: nat, nozzleX: real, us: nat -> real, k: nat, bm: BoxMuller, pow: Pow): (b: Batch)
    ensures |b.drops| <= n
    ensures k + 5 * n <= b.next <= k + 10 * n
    decreases n
  {
    if n == 0 then Batch([], k)
    else
      var e := Emit(c, h, nozzleX, us, k, bm, pow);
      var rest := Spray(n - 1, c, h, nozzleX, us, e.next, bm, pow);
      Batch((if e.drop.Some? then [e.drop.value] else []) + rest.drops, rest.next)
  }

  lemma {:induction false} SprayInBounds(n: nat, c: Config, h: nat, nozzleX: real, us: nat -> real, k: nat, bm: BoxMuller, pow: Pow)
    requires UnitStream(us) && h > 0 && PowInUnit(pow)
    ensures forall d <- Spray(n, c, h, nozzleX, us, k, bm, pow).drops :: InBounds(d, c, h)
    decreases n
  {
    if n > 0 {
      var e := Emit(c, h, nozzleX, us, k, bm, pow);
      DropletInBounds(c, h, nozzleX, us, k, bm, pow);
      SprayInBounds(n - 1, c, h, nozzleX, us, e.next, bm, pow);
    }
  }

  /** A zero-height surface draws nothing, yet every iteration still consumes its draws. */
  lemma {:induction false} SprayZeroHeight(n: nat, c: Config, nozzleX: real, us: nat -> real, k: nat, bm: BoxMuller, pow: Pow)
    ensures Spray(n, c, 0, nozzleX, us, k, bm, pow).drops == []
    decreases n
  {
    if n > 0 {
      var e := Emit(c, 0, nozzleX, us, k, bm, pow);
      SprayZeroHeight(n - 1, c, nozzleX, us, e.next, bm, pow);
    }
  }
}

=== FILE: keyframes.dfy ===
/**
 * `buildKeyframes` of BlurText.jsx: merge a starting snapshot and a list of
 * step snapshots into one keyframe array per animated property.
 *
 * A snapshot is a plain object; a property may be present with a nullish
 * value, so an object is a map to `Option<V>` (`None` for `null` or
 * `undefined`), and reading an absent property yields `None`.
 */
module Keyframes {
  import opened Wrappers

  type Obj<V> = map<string, Option<V>>

  /** The value of property `k`, `None` (JavaScript's `undefined`) when absent. */
  function Lookup<V>(o: Obj<V>, k: string): (v: Option<V>)
    ensures k !in o ==> v.None?
    ensures v.Some? ==> k in o && o[k] == v
  {
    if k in o then o[k] else None
  }

  /** A missing starting snapshot counts as empty. */
  function SafeFrom<V>(from: Option<Obj<V>>): (o: Obj<V>)
    ensures from.Some? ==> o == from.value
    ensures from.None? ==> o == map[]
  {
    from.GetOr(map[])
  }

  /** Anything but an array of steps counts as no steps. */
  function SafeSteps<V>(steps: Option<seq<Option<Obj<V>>>>): (ss: seq<Option<Obj<V>>>)
    ensures steps.Some? ==> ss == steps.value
    ensures steps.None? ==> ss == []
  {
    steps.GetOr([])
  }

  /** The keys of one step; a null step has none. */
  function KeysOf<V>(s: Option<Obj<V>>): set<string> {
    if s.Some? then s.value.Keys else {}
  }

  /** The keys of all steps together (`flatMap` of their keys). */
  function StepKeys<V>(ss: seq<Option<Obj<V>>>): (ks: set<string>)
    ensures forall k :: k in ks <==> exists i :: 0 <= i < |ss| && k in KeysOf(ss[i])
    decreases |ss|
  {
    if |ss| == 0 then {}
    else
      var rest := StepKeys(ss[1..]);
      assert forall i :: 0 < i < |ss| ==> ss[i] == ss[1..][i - 1];
      KeysOf(ss[0]) + rest
  }

  /** One step's keyframe value for `k`: its own value if the step and the value are non-null, else the starting value. */
  function Entry<V>(s: Option<Obj<V>>, k: string, from: Obj<V>): (v: Option<V>)
    ensures s.Some? && Lookup(s.value, k).Some? ==> v == Lookup(s.value, k)
    ensures s.None? || Lookup(s.value, k).None? ==> v == Lookup(from, k)
  {
    if s.Some? && Lookup(s.value, k).Some? then Lookup(s.value, k) else Lookup(from, k)
  }

  /** The keyframe values the steps give property `k`, one per step, in order. */
  function Column<V>(ss: seq<Option<Obj<V>>>, k: string, from: Obj<V>): (col: seq<Option<V>>)
    ensures |col| == |ss|
    ensures forall i :: 0 <= i < |ss| ==> col[i] == Entry(ss[i], k, from)
    decreases |ss|
  {
    if |ss| == 0 then [] else [Entry(ss[0], k, from)] + Column(ss[1..], k, from)
  }

  /**
   * One keyframe array per key of `from` or of any step: the starting value
   * first, then each step's value with the starting value as fallback.
   */
  function BuildKeyframes<V>(from: Option<Obj<V>>, steps: Option<seq<Option<Obj<V>>>>): (r: map<string, seq<Option<V>>>)
    ensures r.Keys == SafeFrom(from).Keys + StepKeys(SafeSteps(steps))
    ensures forall k <- r :: |r[k]| == |SafeSteps(steps)| + 1 && r[k][0] == Lookup(SafeFrom(from), k)
    ensures forall k, i :: k in r && 0 <= i < |SafeSteps(steps)| ==>
      r[k][i + 1] == Entry(SafeSteps(steps)[i], k, SafeFrom(from))
  {
    var f := SafeFrom(from);
    var ss := SafeSteps(steps);
    map k | k in f.Keys + StepKeys(ss) :: Keyframe(f, ss, k)
  }

  /** The keyframe array of property `k`: the starting value followed by one entry per step. */
  function Keyframe<V>(f: Obj<V>, ss: seq<Option<Obj<V>>>, k: string): (col: seq<Option<V>>)
    ensures |col| == |ss| + 1 && col[0] == Lookup(f, k)
    ensures forall i :: 0 <= i < |ss| ==> col[i + 1] == Entry(ss[i], k, f)
  {
    [Lookup(f, k)] + Column(ss, k, f)
  }

  /** A key has a keyframe array exactly when `from` or some step has that key. */
  lemma KeyframeKeys<V>(from: Option<Obj<V>>, steps: Option<seq<Option<Obj<V>>>>, k: string)
    ensures k in BuildKeyframes(from, steps) <==>
      k in SafeFrom(from) || exists i :: 0 <= i < |SafeSteps(steps)| && k in KeysOf(SafeSteps(steps)[i])
  {
  }

  /** Without steps (none given, or not an array) every key of `from` maps to the one-entry array `[from[k]]`. */
  lemma NoStepsSingletons<V>(from: Option<Obj<V>>, steps: Option<seq<Option<Obj<V>>>>)
    requires steps.None? || steps.value == []
    ensures var r := BuildKeyframes(from, steps);
      r.Keys == SafeFrom(from).Keys && forall k <- r :: r[k] == [Lookup(SafeFrom(from), k)]
  {
    var r := BuildKeyframes(from, steps);
    forall k <- r ensures r[k] == [Lookup(SafeFrom(from), k)] {
      assert |r[k]| == 1;
    }
  }

  /** A step that sets a key to a non-null value shows that value at its position; every other step repeats `from[k]`. */
  lemma StepOverrides<V>(from: Option<Obj<V>>, ss: seq<Option<Obj<V>>>, i: nat, k: string)
    requires i < |ss| && ss[i].Some? && k in ss[i].value && ss[i].value[k].Some?
    ensures var r := BuildKeyframes(from, Some(ss));
      k in r && r[k][i + 1] == ss[i].value[k]
  {
    var r := BuildKeyframes(from, Some(ss));
    assert k in KeysOf(ss[i]);
    assert k in StepKeys(ss);
    assert r[k][i + 1] == Entry(ss[i], k, SafeFrom(from));
  }
}

=== FILE: rng.dfy ===
/**
 * The seeded pseudo-random source of the spray effect: a three-shift
 * xorshift generator on a 32-bit word (`makeSeededRng` in
 * SprayFillCanvas.tsx), and the number of draws one Box-Muller sample
 * consumes (`gaussian01`).
 *
 * The JavaScript keeps the state in a signed 32-bit integer; every
 * operation it applies (`|`, `^`, `<<`, `>>>`) is a bit-pattern operation,
 * so the state is modelled exactly as a `bv32`.
 */
module SeededRng {

  /** Fallback state used when the truncated seed is zero. */
  const ZeroSeedFallback: bv32 := 123456789

  /** 0xffffffff, the divisor that maps the unsigned state to a number. */
  const MaxWord: real := 4294967295.0

  /**
   * `seed | 0`: the seed truncated to its low 32 bits, with zero replaced
   * by the fallback constant. The result is never zero.
   */
  function Seed(seed: int): (s: bv32)
    ensures s != 0
    ensures seed % 0x1_0000_0000 != 0 ==> s == (seed % 0x1_0000_0000) as bv32
    ensures seed % 0x1_0000_0000 == 0 ==> s == ZeroSeedFallback
  {
    var low := seed % 0x1_0000_0000;
    if low == 0 then ZeroSeedFallback else low as bv32
  }

  /** Seeds that agree in their low 32 bits give the same generator. */
  lemma SeedTruncates(seed: int, k: int)
    ensures Seed(seed + k * 0x1_0000_0000) == Seed(seed)
  {
    var q, r := seed / 0x1_0000_0000, seed % 0x1_0000_0000;
    assert seed + k * 0x1_0000_0000 == (q + k) * 0x1_0000_0000 + r;
    assert (seed + k * 0x1_0000_0000) % 0x1_0000_0000 == r;
  }

  /** One xorshift32 step with shifts 13 left, 17 right (logical), 5 left, each xor-ed into the state. */
  function Next(s: bv32): (r: bv32)
    ensures s != 0 ==> r != 0
  {
    var a := s ^ (s << 13);
    var b := a ^ (a >> 17);
    b ^ (b << 5)
  }

  /** The state read as an unsigned word and divided by the largest word, 2^32 - 1. */
  function Value(s: bv32): (u: real)
    ensures s != 0 ==> 0.0 < u <= 1.0
    ensures u == 1.0 <==> s == 0xFFFF_FFFF
  {
    (s as int) as real / MaxWord
  }

  /** The result of one call of the generator: the number it returns and the state it leaves. */
  datatype Drawn = Drawn(value: real, next: bv32)

  /** One call `rng()`: advance the state, then scale it. */
  function Draw(s: bv32): (d: Drawn)
    ensures d.next == Next(s)
    ensures d.value == Value(d.next)
    ensures s != 0 ==> d.next != 0 && 0.0 < d.value <= 1.0
  {
    var n := Next(s);
    Drawn(Value(n), n)
  }

  /** `k` successive generator steps. */
  function Iterate(s: bv32, k: nat): (r: bv32)
    ensures s != 0 ==> r != 0
    decreases k
  {
    if k == 0 then s else Iterate(Next(s), k - 1)
  }

  /** The infinite sequence of numbers the generator returns from state `s`: call `i` returns `Stream(s)(i)`. */
  function Stream(s: bv32): (us: nat -> real)
    ensures forall i: nat :: us(i) == Value(Iterate(s, i + 1))
  {
    (i: nat) => Value(Iterate(s, i + 1))
  }

  /** A stream of draws each in (0, 1]. */
  ghost predicate UnitStream(us: nat -> real) {
    forall i: nat :: 0.0 < us(i) <= 1.0
  }

  lemma StreamInUnit(s: bv32)
    requires s != 0
    ensures UnitStream(Stream(s))
  {
    forall i: nat ensures 0.0 < Stream(s)(i) <= 1.0 {
      assert Iterate(s, i + 1) != 0;
    }
  }

  lemma {:induction false} IterateAdd(s: bv32, a: nat, b: nat)
    ensures Iterate(Iterate(s, a), b) == Iterate(s, a + b)
    decreases a
  {
    if a > 0 {
      IterateAdd(Next(s), a - 1, b);
    }
  }

  /**
   * The state is never reseeded: after `n` draws the generator continues
   * the same stream, so consecutive frames read consecutive stretches of it.
   */
  lemma StreamContinues(s: bv32, n: nat, i: nat)
    ensures Stream(Iterate(s, n))(i) == Stream(s)(n + i)
  {
    IterateAdd(s, n, i + 1);
  }

  /**
   * A sample taken after `k` draws sees the generator at `Iterate(s, k)`:
   * its two uniforms are draws `k` and `k + 1` of the stream from `s`, and
   * it leaves the state `k + 2` steps on.
   */
  lemma SampleMidStream(s: bv32, k: nat)
    ensures Stream(Iterate(s, k))(0) == Stream(s)(k)
    ensures Stream(Iterate(s, k))(1) == Stream(s)(k + 1)
    ensures Iterate(Iterate(s, k), 2) == Iterate(s, k + 2)
  {
    var t := Iterate(s, k);
    assert Iterate(t, 1) == Iterate(s, k + 1) by { IterateAdd(s, k, 1); }
    assert Iterate(t, 2) == Iterate(s, k + 2) by { IterateAdd(s, k, 2); }
  }

  /** The two uniforms `u`, `v` of one Box-Muller sample and the state after them. */
  datatype Uniforms = Uniforms(u: real, v: real, next: bv32)

  /**
   * `gaussian01` as the source writes it: two rejection loops, each drawing
   * until the value is non-zero. Because a non-zero state never yields 0,
   * each loop body runs exactly once and the sample costs two draws.
   */
  method GaussianUniforms(s: bv32) returns (r: Uniforms, draws: nat)
    requires s != 0
    ensures draws == 2
    ensures r.next == Iterate(s, 2) && r.next != 0
    ensures r.u == Stream(s)(0) && r.v == Stream(s)(1)
    ensures 0.0 < r.u <= 1.0 && 0.0 < r.v <= 1.0
  {
    var state := s;
    var u := 0.0;
    var v := 0.0;
    draws := 0;
    while u == 0.0
      invariant state != 0
      invariant u == 0.0 ==> draws == 0 && state == s
      invariant u != 0.0 ==> draws == 1 && state == Next(s) && u == Value(state)
      decreases if u == 0.0 then 1 else 0
    {
      var d := Draw(state);
      u, state, draws := d.value, d.next, draws + 1;
    }
    while v == 0.0
      invariant state != 0 && u == Value(Next(s))
      invariant v == 0.0 ==> draws == 1 && state == Next(s)
      invariant v != 0.0 ==> draws == 2 && state == Next(Next(s)) && v == Value(state)
      decreases if v == 0.0 then 1 else 0
    {
      var d := Draw(state);
      v, state, draws := d.value, d.next, draws + 1;
    }
    r := Uniforms(u, v, state);
  }

  /** State 0x5e6cfce7 steps to 0xffffffff, whose value is exactly 1. */
  lemma ValueOneIsReachable()
    ensures Next(0x5e6c_fce7) == 0xFFFF_FFFF
    ensures Draw(0x5e6c_fce7).value == 1.0
  {
  }

  /** A seed of zero does not stall: the first two values differ. */
  lemma ZeroSeedDoesNotDegenerate()
    ensures Seed(0) == ZeroSeedFallback
    ensures Draw(Seed(0)).value != Draw(Draw(Seed(0)).next).value
  {
  }

  /** No non-zero state is a fixed point of the generator. */
  lemma NoFixedPoint(s: bv32)
    requires s != 0
    ensures Next(s) != s
  {
  }
}

=== FILE: spray.dfy ===
/**
 * The sweep controller, the frame step and the imperative control handle
 * of SprayFillCanvas.tsx, as pure transitions on an immutable state record.
 *
 * The browser's frame scheduler is abstracted as the `pending` flag: a
 * frame callback is scheduled exactly when `pending` holds, and a `Tick`
 * event runs it. Canvas drawing is left out; a frame returns the droplets
 * it would draw.
 */
module SprayFill {
  import opened Wrappers
  import opened SeededRng
  import opened Droplets

  datatype Dir = Ltr | Rtl

  /** The refs the component keeps between frames. */
  datatype SprayState = SprayState(
    running: bool,
    pending: bool,          // a frame callback is scheduled
    dir: Dir,
    nozzleX: real,
    nozzleY: real,
    tPrev: Option<real>,    // timestamp of the previous frame, ms
    rng: bv32)

  /** Largest time step a frame applies, in seconds. */
  const MaxDt: real := 0.05

  /** Most droplets one frame tries to place. */
  const MaxDroplets: int := 5000

  /** The state right after construction: idle, sweeping left to right, generator seeded. */
  function Initial(c: Config): (st: SprayState)
    ensures !st.running && !st.pending && st.dir == Ltr && st.tPrev.None?
    ensures st.rng == Seed(c.seed) && st.rng != 0
  {
    SprayState(false, false, Ltr, 0.0, 0.0, None, Seed(c.seed))
  }

  /**
   * The nozzle placement done by `resizeAndInit` for the `width` x `height`
   * props: vertical centre, and the edge a sweep in the current direction
   * starts from.
   */
  function Mount(st: SprayState, width: real, height: real): (r: SprayState)
    ensures r.nozzleY == height / 2.0
    ensures r.nozzleX == (if st.dir == Ltr then 0.0 else width)
    ensures r.(nozzleX := st.nozzleX, nozzleY := st.nozzleY) == st
  {
    st.(nozzleY := height * 0.5, nozzleX := if st.dir == Ltr then 0.0 else width)
  }

  /**
   * A re-run of the resize effect (the `useEffect` that calls
   * `resizeAndInit`) after one of its inputs changed (a new
   * `width`, say): the effect's clean-up cancels the scheduled frame, but
   * leaves `running` as it is, and `resizeAndInit` places the nozzle again.
   */
  function Reinit(st: SprayState, width: real, height: real): (r: SprayState)
    ensures !r.pending && r.running == st.running
    ensures r.dir == st.dir && r.tPrev == st.tPrev && r.rng == st.rng
    ensures r.nozzleX == (if st.dir == Ltr then 0.0 else width) && r.nozzleY == height / 2.0
  {
    Mount(st.(pending := false), width, height)
  }

  /**
   * The frame's time step in seconds: zero on the first frame after the
   * timestamp was cleared, otherwise the elapsed time capped at 50 ms.
   */
  function Delta(tPrev: Option<real>, tNow: real): (dt: real)
    ensures dt <= MaxDt
    ensures tPrev.None? ==> dt == 0.0
    ensures tPrev.Some? && tNow - tPrev.value <= 50.0 ==> dt * 1000.0 == tNow - tPrev.value
    ensures tPrev.Some? && tNow - tPrev.value >= 50.0 ==> dt == MaxDt
    ensures tPrev.None? || tPrev.value <= tNow ==> dt >= 0.0
  {
    var prev := tPrev.GetOr(tNow);
    Min(MaxDt, (tNow - prev) / 1000.0)
  }

  /** The number of droplets a frame aims for: the floor of `flowRate * dt`, capped at 5000. */
  function DropletCount(flowRate: real, dt: real): (n: int)
    ensures n <= MaxDroplets
    ensures n as real <= flowRate * dt
    ensures n == MaxDroplets || flowRate * dt < (n + 1) as real
    ensures dt == 0.0 ==> n == 0
  {
    var target := (flowRate * dt).Floor;
    if target < MaxDroplets then target else MaxDroplets
  }

  /** The sweep's unit direction: +1 left to right, -1 right to left. */
  function Sign(d: Dir): real {
    if d == Ltr then 1.0 else -1.0
  }

  /** Whether the nozzle has reached the edge it is heading for. */
  predicate Reached(d: Dir, x: real, w: nat) {
    (d == Ltr && x >= w as real) || (d == Rtl && x <= 0.0)
  }

  /** The edge a sweep in direction `d` heads for. */
  function FarEdge(d: Dir, w: nat): real {
    if d == Ltr then w as real else 0.0
  }

  function Reverse(d: Dir): Dir {
    if d == Ltr then Rtl else Ltr
  }

  /** Direction and position after the boundary rule, and whether the sweep stopped. */
  datatype Sweep = Sweep(dir: Dir, x: real, stopped: bool)

  /**
   * The stop/loop rule: at the far edge a looping sweep turns round and
   * lands exactly on the edge; a non-looping one stops where it is.
   */
  function Boundary(d: Dir, x: real, w: nat, loop: bool): (r: Sweep)
    ensures r.dir != d <==> loop && Reached(d, x, w)
    ensures r.stopped <==> !loop && Reached(d, x, w)
    ensures r.dir != d ==> r.dir == Reverse(d) && r.x == FarEdge(d, w)
    ensures r.dir == d ==> r.x == x
  {
    if d == Ltr && x >= w as real then
      if loop then Sweep(Rtl, w as real, false) else Sweep(d, x, true)
    else if d == Rtl && x <= 0.0 then
      if loop then Sweep(Ltr, 0.0, false) else Sweep(d, x, true)
    else
      Sweep(d, x, false)
  }

  /**
   * What one frame produces: the next state, the droplets drawn, the
   * droplet count it aimed for, and how many generator calls it made.
   */
  datatype FrameResult = FrameResult(state: SprayState, drops: seq<Droplet>, count: int, draws: nat)

  /**
   * One run of the frame callback `step(tNow)` on a surface of client size
   * `w` x `h`: time step, nozzle advance, boundary rule, droplet batch,
   * and rescheduling exactly when the sweep is still running.
   */
  function Frame(c: Config, st: SprayState, tNow: real, w: nat, h: nat, bm: BoxMuller, pow: Pow): (r: FrameResult)
    ensures r.state.pending == r.state.running
    ensures r.state.running ==> st.running
    ensures r.state.tPrev == Some(tNow)
    ensures r.count <= MaxDroplets && |r.drops| <= (if r.count > 0 then r.count else 0)
    ensures st.tPrev.None? ==> r.count == 0 && r.drops == []
    ensures c.loop ==> r.state.running == st.running
    ensures st.rng != 0 ==> r.state.rng != 0
    ensures r.state.rng == Iterate(st.rng, r.draws)
    ensures var n := if r.count > 0 then r.count else 0; 5 * n <= r.draws <= 10 * n
    ensures r.state.nozzleY == st.nozzleY
    ensures r.count == DropletCount(c.flowRate, Delta(st.tPrev, tNow))
    ensures r.drops == Spray(if r.count > 0 then r.count else 0, c, h, r.state.nozzleX, Stream(st.rng), 0, bm, pow).drops
    ensures st.rng != 0 && h > 0 && PowInUnit(pow) ==> forall d <- r.drops :: InBounds(d, c, h)
    ensures var sw := Boundary(st.dir, Advanced(c, st, tNow), w, c.loop);
      r.state.dir == sw.dir && r.state.nozzleX == sw.x && r.state.running == (st.running && !sw.stopped)
  {
    var dt := Delta(st.tPrev, tNow);
    var sw := Boundary(st.dir, Advanced(c, st, tNow), w, c.loop);
    var running := st.running && !sw.stopped;
    var n := DropletCount(c.flowRate, dt);
    var batch := FrameBatch(c, st, n, sw.x, h, bm, pow);
    var next := st.(running := running, pending := running, dir := sw.dir, nozzleX := sw.x,
                    tPrev := Some(tNow), rng := Iterate(st.rng, batch.next));
    FrameResult(next, batch.drops, n, batch.next)
  }

  /** The frame's droplet loop: `n` iterations around the nozzle, reading the generator from its current state. */
  function FrameBatch(c: Config, st: SprayState, n: int, nozzleX: real, h: nat, bm: BoxMuller, pow: Pow): (b: Batch)
    ensures |b.drops| <= (if n > 0 then n else 0)
    ensures st.rng != 0 && h > 0 && PowInUnit(pow) ==> forall d <- b.drops :: InBounds(d, c, h)
  {
    BatchInBounds(c, st.rng, n, nozzleX, h, bm, pow);
    Spray(if n > 0 then n else 0, c, h, nozzleX, Stream(st.rng), 0, bm, pow)
  }

  lemma BatchInBounds(c: Config, s: bv32, n: int, nozzleX: real, h: nat, bm: BoxMuller, pow: Pow)
    ensures s != 0 && h > 0 && PowInUnit(pow) ==>
      forall d <- Spray(if n > 0 then n else 0, c, h, nozzleX, Stream(s), 0, bm, pow).drops :: InBounds(d, c, h)
  {
    if s != 0 && h > 0 && PowInUnit(pow) {
      StreamInUnit(s);
      SprayInBounds(if n > 0 then n else 0, c, h, nozzleX, Stream(s), 0, bm, pow);
    }
  }

  /** The nozzle position after the advance, before the boundary rule. */
  function Advanced(c: Config, st: SprayState, tNow: real): real {
    st.nozzleX + Sign(st.dir) * (c.sweepSpeed * Delta(st.tPrev, tNow))
  }

  /**
   * Without looping, crossing the far edge ends the sweep: the frame leaves
   * direction and the overshooting position as advanced and schedules no
   * further frame.
   */
  lemma NonLoopStops(c: Config, st: SprayState, tNow: real, w: nat, h: nat, bm: BoxMuller, pow: Pow)
    requires !c.loop && Reached(st.dir, Advanced(c, st, tNow), w)
    ensures var r := Frame(c, st, tNow, w, h, bm, pow).state;
      !r.running && !r.pending && r.dir == st.dir && r.nozzleX == Advanced(c, st, tNow)
  {
  }

  /** With looping, a frame that starts inside [0, w] ends inside it, as long as time does not run backwards. */
  lemma LoopStaysInside(c: Config, st: SprayState, tNow: real, w: nat, h: nat, bm: BoxMuller, pow: Pow)
    requires c.loop && c.sweepSpeed >= 0.0
    requires 0.0 <= st.nozzleX <= w as real
    requires st.tPrev.None? || st.tPrev.value <= tNow
    ensures var r := Frame(c, st, tNow, w, h, bm, pow).state;
      0.0 <= r.nozzleX <= w as real
  {
    var dt := Delta(st.tPrev, tNow);
    var adv := c.sweepSpeed * dt;
    assert adv >= 0.0 by {
      assert dt >= 0.0;
      ScaleBetween(dt, 0.0, dt, c.sweepSpeed);
      assert dt * c.sweepSpeed == adv;
    }
    var x := Advanced(c, st, tNow);
    assert x == st.nozzleX + Sign(st.dir) * adv;
    if st.dir == Ltr {
      assert x == st.nozzleX + adv;
    } else {
      assert x == st.nozzleX - adv;
    }
    var sw := Boundary(st.dir, x, w, c.loop);
    assert 0.0 <= sw.x <= w as real;
    assert Frame(c, st, tNow, w, h, bm, pow).state.nozzleX == sw.x;
  }

  /** Direction, position and generator: the parts of the state the control calls other than reset keep. */
  predicate SameSweep(a: SprayState, b: SprayState) {
    a.dir == b.dir && a.nozzleX == b.nozzleX && a.nozzleY == b.nozzleY && a.rng == b.rng
  }

  /** `start()`: a no-op while running; otherwise run, clear the timestamp, schedule a frame. */
  function Start(st: SprayState): (r: SprayState)
    ensures r.running && r.pending == (st.pending || !st.running)
    ensures st.running ==> r == st
    ensures !st.running ==> r.tPrev.None?
    ensures SameSweep(r, st)
  {
    if st.running then st else st.(running := true, tPrev := None, pending := true)
  }

  /** `pause()`: stop and cancel the scheduled frame. */
  function Pause(st: SprayState): (r: SprayState)
    ensures !r.running && !r.pending
    ensures SameSweep(r, st) && r.tPrev == st.tPrev
  {
    st.(running := false, pending := false)
  }

  /**
   * `reset()` on a surface of client height `h`: rewind the nozzle to the
   * left edge, vertical centre, and clear the timestamp. It does not cancel
   * a scheduled frame and does not change `running`.
   */
  function Reset(st: SprayState, h: nat): (r: SprayState)
    ensures r.dir == Ltr && r.nozzleX == 0.0 && r.nozzleY == h as real / 2.0 && r.tPrev.None?
    ensures r.running == st.running && r.pending == st.pending && r.rng == st.rng
  {
    st.(dir := Ltr, nozzleX := 0.0, nozzleY := h as real * 0.5, tPrev := None)
  }

  /** `setSweepDirection(dir)`: only the direction changes. */
  function SetSweepDirection(st: SprayState, d: Dir): (r: SprayState)
    ensures r.dir == d
    ensures r.(dir := st.dir) == st
  {
    st.(dir := d)
  }

  lemma PauseIdempotent(st: SprayState)
    ensures Pause(Pause(st)) == Pause(st)
  {
  }

  lemma ResetIdempotent(st: SprayState, h: nat)
    ensures Reset(Reset(st, h), h) == Reset(st, h)
  {
  }

  /** Calling `start()` on a running sweep changes nothing. */
  lemma StartIdempotent(st: SprayState)
    ensures Start(Start(st)) == Start(st)
  {
  }

  /**
   * Everything that can happen to the component: a control call, a
   * re-run of the resize effect, or a display-refresh tick.
   */
  datatype Event =
    | StartCall
    | PauseCall
    | ResetCall(h: nat)
    | SetDirectionCall(d: Dir)
    | ReinitCall(width: real, height: real)
    | Tick(tNow: real, w: nat, h: nat)

  /** One event; a tick runs the frame callback only if one is scheduled. */
  function Apply(c: Config, st: SprayState, ev: Event, bm: BoxMuller, pow: Pow): SprayState {
    match ev
    case StartCall => Start(st)
    case PauseCall => Pause(st)
    case ResetCall(h) => Reset(st, h)
    case SetDirectionCall(d) => SetSweepDirection(st, d)
    case ReinitCall(width, height) => Reinit(st, width, height)
    case Tick(tNow, w, h) => if st.pending then Frame(c, st, tNow, w, h, bm, pow).state else st
  }

  function Run(c: Config, st: SprayState, evs: seq<Event>, bm: BoxMuller, pow: Pow): SprayState
    decreases |evs|
  {
    if |evs| == 0 then st else Run(c, Apply(c, st, evs[0], bm, pow), evs[1..], bm, pow)
  }

  /** The generator calls one event makes: a frame's draws when a tick runs one, none otherwise. */
  function EventDraws(c: Config, st: SprayState, ev: Event, bm: BoxMuller, pow: Pow): nat {
    if ev.Tick? && st.pending then Frame(c, st, ev.tNow, ev.w, ev.h, bm, pow).draws else 0
  }

  /** The generator calls a whole sequence of events makes. */
  function RunDraws(c: Config, st: SprayState, evs: seq<Event>, bm: BoxMuller, pow: Pow): nat
    decreases |evs|
  {
    if |evs| == 0 then 0
    else EventDraws(c, st, evs[0], bm, pow) + RunDraws(c, Apply(c, st, evs[0], bm, pow), evs[1..], bm, pow)
  }

  lemma ApplyFollowsStream(c: Config, st: SprayState, ev: Event, bm: BoxMuller, pow: Pow)
    ensures Apply(c, st, ev, bm, pow).rng == Iterate(st.rng, EventDraws(c, st, ev, bm, pow))
  {
  }

  /**
   * The generator is never reseeded or rewound: whatever the calls and
   * ticks, the state after them is the one reached by stepping the initial
   * state once per draw the frames made.
   */
  lemma {:induction false} RunFollowsStream(c: Config, st: SprayState, evs: seq<Event>, bm: BoxMuller, pow: Pow)
    ensures Run(c, st, evs, bm, pow).rng == Iterate(st.rng, RunDraws(c, st, evs, bm, pow))
    decreases |evs|
  {
    if |evs| > 0 {
      var next := Apply(c, st, evs[0], bm, pow);
      var a := EventDraws(c, st, evs[0], bm, pow);
      ApplyFollowsStream(c, st, evs[0], bm, pow);
      RunFollowsStream(c, next, evs[1..], bm, pow);
      IterateAdd(st.rng, a, RunDraws(c, next, evs[1..], bm, pow));
    }
  }

  /**
   * The driver invariant of control calls and ticks: a frame is scheduled
   * exactly while running (so stopping always cancels it, and at most one
   * is ever pending), and the generator state is never zero.
   */
  ghost predicate Consistent(st: SprayState) {
    st.pending == st.running && st.rng != 0
  }

  /** The half of the invariant that survives a re-run of the resize effect: a scheduled frame belongs to a running sweep. */
  ghost predicate FrameOwned(st: SprayState) {
    (st.pending ==> st.running) && st.rng != 0
  }

  /** A sequence of control calls and ticks, with no re-run of the resize effect. */
  predicate CallsAndTicks(evs: seq<Event>) {
    forall i :: 0 <= i < |evs| ==> !evs[i].ReinitCall?
  }

  lemma InitialConsistent(c: Config)
    ensures Consistent(Initial(c))
  {
  }

  lemma ApplyPreserves(c: Config, st: SprayState, ev: Event, bm: BoxMuller, pow: Pow)
    requires Consistent(st) && !ev.ReinitCall?
    ensures Consistent(Apply(c, st, ev, bm, pow))
  {
  }

  lemma {:induction false} RunPreserves(c: Config, st: SprayState, evs: seq<Event>, bm: BoxMuller, pow: Pow)
    requires Consistent(st) && CallsAndTicks(evs)
    ensures Consistent(Run(c, st, evs, bm, pow))
    decreases |evs|
  {
    if |evs| > 0 {
      ApplyPreserves(c, st, evs[0], bm, pow);
      RunPreserves(c, Apply(c, st, evs[0], bm, pow), evs[1..], bm, pow);
    }
  }

  lemma ApplyKeepsOwned(c: Config, st: SprayState, ev: Event, bm: BoxMuller, pow: Pow)
    requires FrameOwned(st)
    ensures FrameOwned(Apply(c, st, ev, bm, pow))
  {
  }

  /** Over any events at all, including re-runs of the resize effect, no frame is ever scheduled for a stopped sweep. */
  lemma {:induction false} RunKeepsOwned(c: Config, st: SprayState, evs: seq<Event>, bm: BoxMuller, pow: Pow)
    requires FrameOwned(st)
    ensures FrameOwned(Run(c, st, evs, bm, pow))
    decreases |evs|
  {
    if |evs| > 0 {
      ApplyKeepsOwned(c, st, evs[0], bm, pow);
      RunKeepsOwned(c, Apply(c, st, evs[0], bm, pow), evs[1..], bm, pow);
    }
  }

  /**
   * A re-run of the resize effect in the middle of a sweep cancels its frame
   * but leaves it marked running: the driver invariant is broken, and only
   * a `pause()` followed by `start()` restores it.
   */
  lemma ReinitLosesFrame(st: SprayState, width: real, height: real)
    requires Consistent(st) && st.running
    ensures var r := Reinit(st, width, height);
      r.running && !r.pending && !Consistent(r) && Consistent(Start(Pause(r)))
  {
  }

  /** A sweep marked running with no frame scheduled ignores `start()` and ticks: nothing changes, ever. */
  lemma {:induction false} StalledStaysStalled(c: Config, st: SprayState, evs: seq<Event>, bm: BoxMuller, pow: Pow)
    requires st.running && !st.pending
    requires forall i :: 0 <= i < |evs| ==> evs[i].StartCall? || evs[i].Tick?
    ensures Run(c, st, evs, bm, pow) == st
    decreases |evs|
  {
    if |evs| > 0 {
      assert Apply(c, st, evs[0], bm, pow) == st;
      StalledStaysStalled(c, st, evs[1..], bm, pow);
    }
  }

  /**
   * The stall a window resize causes: after a re-run of the resize effect
   * mid-sweep, no sequence of `start()` calls and ticks moves the nozzle
   * from where `resizeAndInit` put it.
   */
  lemma ResizeStallsSweep(c: Config, st: SprayState, width: real, height: real, evs: seq<Event>, bm: BoxMuller, pow: Pow)
    requires Consistent(st) && st.running
    requires forall i :: 0 <= i < |evs| ==> evs[i].StartCall? || evs[i].Tick?
    ensures var r := Run(c, st, [ReinitCall(width, height)] + evs, bm, pow);
      r == Reinit(st, width, height) && r.running && !r.pending
  {
    RunAppend(c, st, [ReinitCall(width, height)], evs, bm, pow);
    assert Run(c, st, [ReinitCall(width, height)], bm, pow) == Reinit(st, width, height);
    StalledStaysStalled(c, Reinit(st, width, height), evs, bm, pow);
  }

  /** After `reset()`, placing the nozzle again for the same height changes nothing: both start a left-to-right sweep at the left edge. */
  lemma MountAfterReset(st: SprayState, width: nat, h: nat)
    ensures Mount(Reset(st, h), width as real, h as real) == Reset(st, h)
  {
  }

  /**
   * A non-looping sweep that has finished is not resumed by `start()`: the
   * first frame has a zero time step, finds the nozzle still past the edge,
   * and stops again.
   */
  lemma RestartAfterFinishStopsAgain(c: Config, st: SprayState, tNow: real, w: nat, h: nat, bm: BoxMuller, pow: Pow)
    requires !c.loop && !st.running && Reached(st.dir, st.nozzleX, w)
    ensures var r := Frame(c, Start(st), tNow, w, h, bm, pow).state;
      !r.running && !r.pending && r.nozzleX == st.nozzleX
  {
  }

  lemma {:induction false} RunAppend(c: Config, st: SprayState, a: seq<Event>, b: seq<Event>, bm: BoxMuller, pow: Pow)
    ensures Run(c, st, a + b, bm, pow) == Run(c, Run(c, st, a, bm, pow), b, bm, pow)
    decreases |a|
  {
    if |a| > 0 {
      assert (a + b)[0] == a[0] && (a + b)[1..] == a[1..] + b;
      RunAppend(c, Apply(c, st, a[0], bm, pow), a[1..], b, bm, pow);
    } else {
      assert a + b == b;
    }
  }

  /** Frame interval of a 62.5 Hz display, in ms. */
  const FrameMs: real := 16.0

  /** `k` display-refresh ticks, 16 ms apart from time 0, on the default 900 x 300 surface. */
  function SweepTicks(k: nat): seq<Event> {
    seq(k, i => Tick(FrameMs * i as real, 900, 300))
  }

  /** One 16 ms tick of a running, non-looping 220 px/s sweep that is still short of the 900 px edge. */
  lemma SweepTick(c: Config, prev: SprayState, k: nat, bm: BoxMuller, pow: Pow)
    requires !c.loop && c.sweepSpeed == 220.0 && 0 < k
    requires prev.running && prev.pending && prev.dir == Ltr
    requires prev.nozzleX == 3.52 * (k - 1) as real && prev.tPrev == Some(FrameMs * (k - 1) as real)
    ensures var r := Apply(c, prev, Tick(FrameMs * k as real, 900, 300), bm, pow);
      r.dir == Ltr && r.nozzleX == 3.52 * k as real && r.tPrev == Some(FrameMs * k as real)
      && (r.running <==> k <= 255) && r.pending == r.running
  {
    var tNow := FrameMs * k as real;
    assert Delta(prev.tPrev, tNow) == 0.016;
    assert Advanced(c, prev, tNow) == 3.52 * k as real;
    assert Reached(Ltr, 3.52 * k as real, 900) <==> k >= 256;
  }

  /**
   * With the default speed of 220 px/s and no looping, after `start()` and
   * `k + 1` ticks (the first has a zero time step) the nozzle has moved
   * 3.52 px per tick and the sweep is still running while it is short of
   * the 900 px edge.
   */
  lemma {:induction false} SweepProgress(c: Config, st: SprayState, k: nat, bm: BoxMuller, pow: Pow)
    requires !c.loop && c.sweepSpeed == 220.0
    requires !st.running && !st.pending && st.dir == Ltr && st.nozzleX == 0.0
    requires k <= 255
    ensures var r := Run(c, st, [StartCall] + SweepTicks(k + 1), bm, pow);
      r.running && r.pending && r.dir == Ltr && r.nozzleX == 3.52 * k as real && r.tPrev == Some(FrameMs * k as real)
    decreases k
  {
    var tick := Tick(FrameMs * k as real, 900, 300);
    var evs := [StartCall] + SweepTicks(k);
    assert [StartCall] + SweepTicks(k + 1) == evs + [tick];
    RunAppend(c, st, evs, [tick], bm, pow);
    var prev := Run(c, st, evs, bm, pow);
    assert Run(c, prev, [tick], bm, pow) == Apply(c, prev, tick, bm, pow);
    if k == 0 {
      assert evs == [StartCall];
      assert prev == Run(c, Start(st), [], bm, pow) == Start(st);
      assert Delta(prev.tPrev, 0.0) == 0.0;
    } else {
      SweepProgress(c, st, k - 1, bm, pow);
      SweepTick(c, prev, k, bm, pow);
    }
  }

  /**
   * The tick at 4096 ms, the 257th, is the one that crosses the edge: the
   * sweep stops and schedules nothing more. The nominal duration 900/220 s
   * lies within one frame interval before it.
   */
  lemma SweepFinishes(c: Config, st: SprayState, bm: BoxMuller, pow: Pow)
    requires !c.loop && c.sweepSpeed == 220.0
    requires !st.running && !st.pending && st.dir == Ltr && st.nozzleX == 0.0
    ensures var r := Run(c, st, [StartCall] + SweepTicks(257), bm, pow);
      !r.running && !r.pending && r.tPrev == Some(4096.0) && r.nozzleX > 900.0
    ensures 4096.0 - FrameMs < 900.0 / 220.0 * 1000.0 <= 4096.0
  {
    var tick := Tick(FrameMs * 256 as real, 900, 300);
    var evs := [StartCall] + SweepTicks(256);
    assert [StartCall] + SweepTicks(257) == evs + [tick];
    RunAppend(c, st, evs, [tick], bm, pow);
    var prev := Run(c, st, evs, bm, pow);
    assert Run(c, prev, [tick], bm, pow) == Apply(c, prev, tick, bm, pow);
    SweepProgress(c, st, 255, bm, pow);
    SweepTick(c, prev, 256, bm, pow);
  }

  /**
   * The component with its default props, mounted on a 900 x 300 surface:
   * started once, it sweeps left to right and stops on the frame at 4096 ms.
   */
  lemma DefaultSweepFinishes(bm: BoxMuller, pow: Pow)
    ensures var r := Run(DefaultConfig, Mount(Initial(DefaultConfig), 900.0, 300.0), [StartCall] + SweepTicks(257), bm, pow);
      !r.running && !r.pending && r.tPrev == Some(4096.0) && r.nozzleX > 900.0
  {
    SweepFinishes(DefaultConfig, Mount(Initial(DefaultConfig), 900.0, 300.0), bm, pow);
  }
}

=== FILE: wrappers.dfy ===
/** Optional values: the model's stand-in for JavaScript's `null`/`undefined`. */
module Wrappers {

  datatype Option<+T> = None | Some(value: T) {

    /** The wrapped value, or `default` when there is none (JavaScript's `??`). */
    function GetOr(default: T): (r: T)
      ensures Some? ==> r == value
      ensures None? ==> r == default
    {
      match this
      case Some(v) => v
      case None => default
    }
  }
}
